=== FILE: README.md ===
# patty — a Dafny model of the install core

patty is a command-line dependency manager for Lua projects. It keeps the
declared dependencies in a manifest (`patty.toml`), installs each one by
running the external `luarocks` installer into a project-local tree
(`.patty`), and records what it installed in a lock file (`patty.lock`).
On Windows without a C compiler on the path, it first locates Visual
Studio's `vcvarsall.bat` and runs the installer through a batch wrapper that
sets up the compiler environment.

This project models that core in Dafny and proves properties of the model:

- `config.dfy` (module `Config`): the manifest record; load-time
  normalisation of absent dependency tables; the `init` guard and the
  default manifest.
- `lock.dfy` (module `Lock`): the lock-file record.
- `luarocks.dfy` (module `Luarocks`): the installer adapter. It covers
  - the argument list;
  - the search for `vcvarsall.bat` in a fixed root × year × edition order;
  - the 32/64-bit guess from executable paths;
  - command-line quoting and joining, and the batch wrapper text;
  - the hand-written lower-casing and substring search;
  - the filter applied to the installer's output;
  - installing one package.
- `commands.dfy` (module `Commands`): the commands `init`, `add`, `remove`,
  `install` and `update`, `name@version` parsing, and the `.gitignore`
  update.
- `strings.dfy`, `sorting.dfy` and `wrappers.dfy` (modules `Strings`,
  `Sorting` and `Wrappers`) are support modules. They hold
  specification-level versions of the Go `strings` functions the core uses
  (substring, ASCII lower-casing, byte-wise order, join/split, white-space
  trimming), `sort.Strings`, and `Option`/`Result`.

Go structs are Dafny datatypes. A nil map is `None` in an `Option<map>`. The
model replaces everything outside the core with a parameter:

- the result of TOML decoding is a `Decoded` value;
- save, lock, loader and directory errors are `Option<string>`;
- `exec.LookPath` is a boolean or a path string ("" for not found);
- `os.Stat` is a predicate `fileExists`;
- `runtime.GOOS` is a boolean;
- the subprocess is a function from an `Invocation` to its `RunResult`;
- installing one package during `install` is a function from
  (name, version) to its error.

What a command hands to a writer (the manifest to save, the lock file, the
text appended to `.gitignore`) comes back as part of its result.

Each loop in the source is a method with a loop, proved against a
specification function. This covers `joinArgs`, `containsSpace`, `toLower`
(which fills an array), `containsStr`, `stringContains`, the triple loop of
`findVcvarsall`, `detectLuaArch`, `filterCompilerOutput`, and the three loops
of `CmdInstall` (collecting, installing, building the lock).

## Model

| member | source | states |
|---|---|---|
| `Config.LoadManifest` | internal/patty/config.go:24-41 | A decode failure gives the zero manifest and the decoder's error. Otherwise there is no error, both dependency maps are present, and the result is the decoded manifest with each absent map replaced by an empty one. |
| `Config.WithDefaultsNormalizes` | internal/patty/config.go:32-38 | Normalisation makes both maps present and turns an absent map into an empty one. It leaves present maps and the package section unchanged, and is the identity on a normalised manifest. |
| `Config.EnsureManifestExists` | internal/patty/config.go:58-74 | An existing manifest fails with "manifest file already exists" and nothing is written. Otherwise the manifest written has name "my-project", version "0.1.0", lua ">=5.1" and both maps empty, and the save error is returned. |
| `Luarocks.CheckLuarocksInstalled` | internal/patty/luarocks.go:14-25 | No error exactly when luarocks is found; otherwise the error is the fixed installation hint. |
| `Luarocks.InstallArgs` | internal/patty/luarocks.go:28-33 | For version "" or "latest": exactly `install pkg --tree=.patty --local`. Otherwise the five-element list with the version passed verbatim in third place. |
| `Luarocks.Candidate` | internal/patty/luarocks.go:103 | Every probed vcvarsall.bat path is non-empty, so "" can signal "not found". |
| `Luarocks.FindVcvarsall` | internal/patty/luarocks.go:92-111 | The triple loop with its early return computes the grid search `SearchFrom(0, 0, 0)`. |
| `Luarocks.SearchFromFirst` | internal/patty/luarocks.go:100-110 | From any point of the grid, the search gives "" exactly when no remaining probe exists. Otherwise it gives an existing probe, and every remaining probe tried before it is missing. |
| `Luarocks.VcvarsSearchOrder` | internal/patty/luarocks.go:92-111 | The result is "" exactly when none of the 2×3×4 candidates exists. Otherwise it is the first existing candidate in root, then year, then edition order. |
| `Luarocks.ContainsSpace` | internal/patty/luarocks.go:128-135 | True exactly when the string holds a space. |
| `Luarocks.JoinArgs` | internal/patty/luarocks.go:113-126 | The arguments separated by single spaces, each wrapped in double quotes exactly when it holds a space. No arguments give "". |
| `Luarocks.CommandLineRoundTrip` | internal/patty/luarocks.go:113-126 | A command interpreter splitting the joined line at spaces, honouring the quotes, reads back exactly the original arguments, provided no argument is empty or holds a double quote. |
| `Luarocks.ToLower` | internal/patty/luarocks.go:163-173 | The length is kept, only 'A'..'Z' become 'a'..'z', and every other character is unchanged. |
| `Luarocks.ContainsStr` | internal/patty/luarocks.go:175-185 | True exactly when `sub` occurs contiguously in `s`. It is false when `sub` is longer than `s` and true for an empty `sub`. |
| `Luarocks.DetectLuaArch` | internal/patty/luarocks.go:139-161 | The result is "x86" or "x64". It is "x86" exactly when a non-empty luarocks or lua path, lower-cased, holds "win32", "x86", "program files (x86)" or "32bit"; empty paths are skipped. |
| `Luarocks.ArchTagIgnoresCase` | internal/patty/luarocks.go:151-156 | The guess is the same for the lower-cased paths, so letter case in the paths does not matter. |
| `Luarocks.X86MarkerSubsumes` | internal/patty/luarocks.go:152-155 | A path holding "program files (x86)" already holds "x86". |
| `Luarocks.ScriptLines` | internal/patty/luarocks.go:51 | Provided the vcvarsall.bat path, the arch tag and the installer command (which carries the package name and version verbatim) hold no newline, the wrapper is exactly three newline-terminated lines. The first calls vcvarsall.bat with the arch tag and its output discarded, the second exits with status 1 on errorlevel, and the third runs the luarocks command with stderr merged into stdout. |
| `Luarocks.NewlineAddsScriptLine` | internal/patty/luarocks.go:48-51 | A newline inside the installer command splits it over two wrapper lines. The piece after the newline becomes a line of its own, which the command interpreter runs as a separate command. |
| `Luarocks.WrapperPassesSameArgs` | internal/patty/luarocks.go:48-51 | The luarocks command line in the wrapper reads back into the same argument list as the direct call. This holds for a non-empty package name, with no double quote in name or version, and none of `<`, `>`, `&`, `|`, `^`, `%`, carriage return or newline in either. The reader honours only spaces and quotes. |
| `Luarocks.VersionUnquotedInWrapper` | internal/patty/luarocks.go:113-126 | A pinned version without a space reaches the wrapper's command line verbatim, unquoted and between spaces. A constraint such as ">=1.0" therefore stands there as `>=1.0`, which the command interpreter takes as an output redirection. |
| `Luarocks.ShownLines` | internal/patty/luarocks.go:188-222 | The kept lines are a subsequence of the input in its original order. A kept line is exactly an input line that is not noise and holds a keep marker, and each such line is kept as many times as it occurs in the input. |
| `Luarocks.FilterCompilerOutput` | internal/patty/luarocks.go:188-222 | The loop with `continue` yields the kept lines joined by "\n". The result is "" exactly when no line is kept. |
| `Luarocks.ShownNotBlank` | internal/patty/luarocks.go:206-207 | A kept line is never all white space. |
| `Luarocks.FilterKeeps` | internal/patty/luarocks.go:196-219 | Every kept line holds a keep marker and no skip marker (skip wins), does not start with "**" after trimming, and is not blank. When at least one line is kept, the joined text splits back into the kept lines. |
| `Luarocks.InstallPackage` | internal/patty/luarocks.go:27-90 | On Windows without cl and with no vcvarsall.bat, it returns the compiler-missing error and runs nothing. Temp-script create/write failures give their wrapped errors and run nothing. Otherwise it runs the batch wrapper (or luarocks directly when off Windows or cl is present) and passes on the process error; on failure the filtered output is what is shown. |
| `Commands.CmdInit` | internal/patty/commands.go:10-16 | Success exactly when no manifest exists and saving works. When no manifest exists, the default manifest is handed to the writer and the save error is returned; when one exists, nothing is written and the error is "manifest file already exists". "Created patty.toml" is printed only on success. |
| `Commands.ParsePackageArg` | internal/patty/commands.go:114-123 | With an '@', name + "@" + version is the argument and the name holds no '@' (a split at the first '@'). Without one, the version is "". |
| `Commands.ParsePackageArgRoundTrip` | internal/patty/commands.go:114-123 | `name@version` parses back to (name, version) for every '@'-free name; the version may itself contain '@'. |
| `Commands.RequestedVersion` | internal/patty/commands.go:23-26 | The recorded version is never empty: the given version when there is one, and "latest" when the argument carries no version or an empty one. |
| `Commands.CmdAdd` | internal/patty/commands.go:18-33 | A load failure is passed on with nothing saved. Otherwise the saved manifest maps the name to the requested version, keeps every other key and value, and keeps the dev dependencies and package section; the save error is returned, and the message is printed only on success. |
| `Commands.CmdRemove` | internal/patty/commands.go:94-108 | An undeclared name gives "dependency not found: name" and nothing is saved. Otherwise exactly that key is deleted, every other entry, the dev dependencies and the package section are kept, and the save error is returned. |
| `Commands.StringContains` | internal/patty/commands.go:148-156 | True exactly when `sub` occurs contiguously in `s`. |
| `Commands.ContainsLine` | internal/patty/commands.go:143-146 | True exactly when the content is non-empty and either is `line + "\n"` or contains `"\n" + line`; the two line-end variants add nothing. |
| `Commands.LineEndings` | internal/patty/commands.go:145 | An occurrence of "\n"+line followed by "\n" or "\r\n" is an occurrence of "\n"+line. |
| `Commands.EnsureGitIgnoreLine` | internal/patty/commands.go:125-141 | A read error other than a missing file is returned. Non-empty content that has the line is left alone. Otherwise `line + "\n"` is appended, or the open/write error is returned. |
| `Commands.GitIgnoreIdempotent` | internal/patty/commands.go:131-140 | After an update of content that was empty or ended in a newline, the file has the line, and a second update appends nothing. |
| `Commands.GitIgnoreGluesLine` | internal/patty/commands.go:134-140 | A file holding a single line and no newline gets the line glued onto that line. The result then lacks the line, so the next call appends it again; the newline requirement above is needed. |
| `Commands.GitIgnoreMissesFirstLine` | internal/patty/commands.go:145 | A line that is the file's first line, followed by any number of further lines none of which starts with it, is not recognised, so the line is appended a second time. |
| `Commands.GitIgnoreFirstLineExample` | internal/patty/commands.go:131-140 | On ".patty/\nfoo\n" the update appends ".patty/\n" again. |
| `Commands.LockEntries` | internal/patty/commands.go:72-78 | One entry per name in the given order, with the manifest's version and source "luarocks". |
| `Commands.FirstFailure` | internal/patty/commands.go:60-66 | Every install before the returned position succeeds, and the one at it (if any) fails. |
| `Commands.CollectKeys` | internal/patty/commands.go:54-57 | Ranging over the map (in any order) collects every key exactly once. |
| `Commands.SortedKeys` | internal/patty/commands.go:54-58 | Sorting the collected keys gives the keys in ascending order, each once, whatever order the map produced them in. |
| `Commands.InstallInOrder` | internal/patty/commands.go:60-66 | Packages are installed in the given order. The first failure stops the loop and is returned, and it is the last package attempted; with no failure, every package is attempted. |
| `Commands.BuildLock` | internal/patty/commands.go:68-78 | The lock has meta version "0.1.0" and one entry per name in order. |
| `Commands.CmdInstall` | internal/patty/commands.go:35-92 | The run follows `InstallSpec`. A missing luarocks fails before the manifest is read, with nothing attempted. With zero dependencies it succeeds without installing or writing a lock. |
| `Commands.CmdUpdate` | internal/patty/commands.go:110-112 | `update` behaves exactly as `install`. |
| `Commands.InstallOrder` | internal/patty/commands.go:60-78 | The packages attempted are a prefix of the sorted order, and all but the last succeeded. A run without a lock attempted at least one package and reports the last package's error. A lock is produced exactly when every install succeeded, so a failed install means no lock, and a run with a lock attempted every package. |
| `Commands.LockEntriesDescribe` | internal/patty/commands.go:68-78 | The lock entries have one entry per dependency key and no other, strictly ascending by name, each with version Dependencies[name] and source "luarocks". |
| `Commands.LockDescribesManifest` | internal/patty/commands.go:68-78 | A lock is produced only after luarocks was found, the manifest loaded, the directory created and every dependency installed successfully. It is the lock for the sorted dependency names under meta "0.1.0", it has as many entries as dependencies (at least one), and every dependency was attempted. |
| `Sorting.Ascending` | internal/patty/commands.go:58 | The sorted names are strictly ascending in byte order, hold every key once, and have as many entries as there are keys. |
| `Sorting.SortCorrect` | internal/patty/commands.go:58 | The sort yields a sorted permutation of its input. |
| `Sorting.StrictlySortedUnique` | internal/patty/commands.go:53-58 | Two strictly ascending sequences with the same elements are equal, so the lock order does not depend on map iteration order. |
| `Strings.LessTotal` | internal/patty/commands.go:58 | Byte-wise string order is total: two different strings are ordered one way or the other. |
| `Strings.SplitJoin` | internal/patty/luarocks.go:221 | Splitting at the separator undoes joining for any non-empty list of parts none of which holds the separator. The empty list joins to "", which splits into [""]. |
| `Strings.TrimSpaceBlank` | internal/patty/luarocks.go:207 | A line trims to "" exactly when it is all white space. |

## Left out

- TOML decoding and encoding (`toml.DecodeFile`, `toml.NewEncoder`). The decode result is an input; the manifest and lock handed to the writer are outputs, and the writers' errors are inputs.
- A missing `patty.toml` is reported with the TOML decoder's own error (internal/patty/config.go:28-30). There is no separate "manifest missing" error with a hint to run `init`, and the model follows the code.
- Subprocesses (`exec.Command`, `CombinedOutput`, `cmd /C`), `exec.LookPath`, `os.Stat` and `runtime.GOOS` are parameters (`Host`, `run`). A process error is an opaque string; exit codes are not modelled.
- The temporary batch file: its name, `defer os.Remove` and `Close` are not modelled. Only its create/write outcome (`TempScript`) and its text are.
- Standard error: `shown` is the text `InstallPackage` prints there.
- `Commands.CmdInstall`: the run's standard-output messages ("Installing …", "No dependencies found in patty.toml", "Wrote patty.lock and patty_loader.lua") are not modelled; `attempted` records the installs begun. The messages of `init`, `add` and `remove` are modelled.
- `writeLoaderFile`, `EnsurePattyDir` and `PrintPostInstallHint` are not part of this model. The first two are opaque steps that may fail; the hint prints only.
- `Commands.EnsureGitIgnoreLine`: partial writes, the file mode and the closing of the file are not modelled. `install` ignores its error, as the source does.
- `SaveLockFile` is modelled only as the lock handed to it and its error (internal/patty/lock.go:27-35).
- `cmd/patty/main.go` (argument dispatch, usage, exit codes) and `internal/patty/spinner.go` (a goroutine-driven progress indicator) are not part of this model. main.go calls `CmdInstall` with a package list that the function at internal/patty/commands.go:35 does not take; the model follows commands.go.
- `Luarocks.FilterCompilerOutput`: the output arrives already split into lines. `bufio.Scanner`'s handling of "\r\n" and its token-size limit are not modelled.
- `Luarocks.FilterCompilerOutput`: `strings.ToLower` and `strings.TrimSpace` are taken on ASCII text. Unicode case folding and Unicode white space are not modelled, and strings are sequences of byte-sized characters.
- `Sorting.Ascending`: `sort.Strings` sorts in place. The model sorts a sequence by insertion sort and proves only what the code relies on, namely a strictly ascending permutation.
- `Luarocks.VcvarsPath`: `filepath.Join` is written as joining with a single backslash; its path cleaning is not needed for the fixed components.
- `Luarocks.WrapperPassesSameArgs`: the command interpreter that runs the batch wrapper is modelled only as splitting at spaces and honouring double quotes (`ReadArgs`). Its operators `<`, `>`, `&`, `|`, `^` and its `%` expansion are not modelled. `joinArgs` quotes only arguments holding a space, so for a name or version holding such a character, e.g. the version ">=1.0" (`Luarocks.VersionUnquotedInWrapper`), the wrapper passes different arguments than the direct call. The lemma is therefore stated only for names and versions without them.
- `Luarocks.ScriptLines`: a newline in the package name or version (a TOML string may hold one) adds a command line to the wrapper (`Luarocks.NewlineAddsScriptLine`). The three-line shape is promised only without newlines.
- Go map iteration order is an arbitrary choice in `Commands.CollectKeys`.
- `Commands.ContainsLine`: the line is recognised only when it is the whole file or follows a newline. A first line followed by further lines is missed, so `.patty/` can be appended twice (`Commands.GitIgnoreMissesFirstLine`). The model follows the code and does not promise that the line is never duplicated.
- `Commands.CmdRemove`: the not-found error names only the missing dependency (internal/patty/commands.go:100). It does not list the declared names, and the model follows the code.
- `Commands.CmdInit`: `init` writes only the manifest (internal/patty/commands.go:10-16). It creates no loader, no lock file and no `.gitignore` line, and the model follows the code.

=== FILE: commands.dfy ===
/** The user-facing commands: `init`, `add`, `remove`, `install` and
    `update`. Each command works on a manifest value; what the filesystem,
    the TOML library and the installer report comes in as parameters, and
    what a command hands to a writer comes back as a result. */
module Commands {
  import opened Wrappers
  import opened Strings
  import opened Sorting
  import opened Config
  import opened Lock
  import Luarocks

  // ---------------------------------------------------------------------------
  // init
  // ---------------------------------------------------------------------------

  const CreatedMessage := "Created patty.toml"

  /** `init`: creates the default manifest unless one exists, and reports it
      on standard output when that worked. */
  function CmdInit(manifestExists: bool, saveErr: Option<string>): (r: (ManifestWrite, seq<string>))
    ensures r.0.err == None <==> !manifestExists && saveErr == None
    ensures r.1 == (if r.0.err == None then [CreatedMessage] else [])
    ensures manifestExists ==> r.0.err == Some(AlreadyExists) && r.0.written == None
    ensures r.0.written.Some? ==> r.0.written.value == DefaultManifest()
    ensures !manifestExists ==> r.0 == ManifestWrite(saveErr, Some(DefaultManifest()))
  {
    var w := EnsureManifestExists(manifestExists, saveErr);
    (w, if w.err == None then [CreatedMessage] else [])
  }

  // ---------------------------------------------------------------------------
  // name@version arguments
  // ---------------------------------------------------------------------------

  /** Splits an argument at its first '@' into name and version; without an
      '@' the whole argument is the name and the version is "". */
  function ParsePackageArg(arg: string): (r: (string, string))
    ensures '@' in arg ==> r.0 + "@" + r.1 == arg && '@' !in r.0
    ensures '@' !in arg ==> r == (arg, "")
  {
    if '@' in arg then
      var i := IndexOf(arg, '@');
      assert arg == arg[..i] + "@" + arg[i + 1..];
      (arg[..i], arg[i + 1..])
    else
      (arg, "")
  }

  /** Parsing undoes writing `name@version` for any name without an '@'; the
      version may itself hold '@'. */
  lemma ParsePackageArgRoundTrip(name: string, version: string)
    requires '@' !in name
    ensures ParsePackageArg(name + "@" + version) == (name, version)
  {
    var arg := name + "@" + version;
    assert arg[|name|] == '@';
    var i := IndexOf(arg, '@');
    assert arg[..|name|] == name;
    assert i == |name| by {
      assert i <= |name| by {
        assert arg[|name|] in arg[..|name| + 1];
      }
    }
    assert arg[i + 1..] == version;
  }

  /** The version `add` records: the one given, or "latest" for none. */
  function RequestedVersion(arg: string): (v: string)
    ensures v != ""
    ensures ParsePackageArg(arg).1 != "" ==> v == ParsePackageArg(arg).1
    ensures ParsePackageArg(arg).1 == "" ==> v == "latest"
  {
    var v := ParsePackageArg(arg).1;
    if v == "" then "latest" else v
  }

  // ---------------------------------------------------------------------------
  // add and remove
  // ---------------------------------------------------------------------------

  /** `add name[@version]`: loads the manifest, sets the dependency's version
      ("latest" when none is given) and saves the manifest; on success it
      reports the addition. `saved` is the manifest handed to the writer. */
  method CmdAdd(decoded: Decoded, arg: string, saveErr: Option<string>)
    returns (err: Option<string>, saved: Option<Manifest>, printed: seq<string>)
    ensures decoded.DecodeFailed? ==> err == Some(decoded.err) && saved == None && printed == []
    ensures decoded.Decoded? ==>
      var before := WithDefaults(decoded.manifest);
      var name := ParsePackageArg(arg).0;
      var version := RequestedVersion(arg);
      && err == saveErr
      && saved.Some? && Normalized(saved.value)
      && saved.value.package == before.package
      && saved.value.devDependencies == before.devDependencies
      && saved.value.dependencies.value.Keys == before.dependencies.value.Keys + {name}
      && saved.value.dependencies.value[name] == version
      && (forall k :: k in before.dependencies.value && k != name ==>
            saved.value.dependencies.value[k] == before.dependencies.value[k])
      && printed == (if saveErr == None then ["Added " + name + "@" + version + " to patty.toml"] else [])
  {
    var m, loadErr := LoadManifest(decoded);
    if loadErr.Some? {
      return loadErr, None, [];
    }
    var (name, version) := ParsePackageArg(arg);
    if version == "" {
      version := "latest";
    }
    m := m.(dependencies := Some(m.dependencies.value[name := version]));
    saved := Some(m);
    err := saveErr;
    if err.Some? {
      return err, saved, [];
    }
    printed := ["Added " + name + "@" + version + " to patty.toml"];
  }

  /** `remove name`: fails with "dependency not found" (saving nothing) for
      an undeclared name; otherwise deletes exactly that dependency, saves
      the manifest and reports the removal. */
  method CmdRemove(decoded: Decoded, name: string, saveErr: Option<string>)
    returns (err: Option<string>, saved: Option<Manifest>, printed: seq<string>)
    ensures decoded.DecodeFailed? ==> err == Some(decoded.err) && saved == None && printed == []
    ensures decoded.Decoded? ==>
      var before := WithDefaults(decoded.manifest);
      if name !in before.dependencies.value then
        err == Some("dependency not found: " + name) && saved == None && printed == []
      else
        && err == saveErr
        && saved.Some? && Normalized(saved.value)
        && saved.value.package == before.package
        && saved.value.devDependencies == before.devDependencies
        && saved.value.dependencies.value.Keys == before.dependencies.value.Keys - {name}
        && (forall k :: k in saved.value.dependencies.value ==>
              saved.value.dependencies.value[k] == before.dependencies.value[k])
        && printed == (if saveErr == None then ["Removed " + name + " from patty.toml"] else [])
  {
    var m, loadErr := LoadManifest(decoded);
    if loadErr.Some? {
      return loadErr, None, [];
    }
    if name !in m.dependencies.value {
      return Some("dependency not found: " + name), None, [];
    }
    m := m.(dependencies := Some(m.dependencies.value - {name}));
    saved := Some(m);
    err := saveErr;
    if err.Some? {
      return err, saved, [];
    }
    printed := ["Removed " + name + " from patty.toml"];
  }

  // ---------------------------------------------------------------------------
  // .gitignore
  // ---------------------------------------------------------------------------

  /** Scans every start position for `sub`. */
  method StringContains(s: string, sub: string) returns (found: bool)
    ensures found <==> Occurs(sub, s)
  {
    var i := 0;
    while i + |sub| <= |s|
      invariant i == 0 || i + |sub| <= |s| + 1
      invariant forall j :: 0 <= j < i ==> !(sub <= s[j..])
    {
      if s[i..i + |sub|] == sub {
        OccursAt(sub, s, i);
        return true;
      }
      i := i + 1;
    }
    return false;
  }

  /** The content already has `line`: it is exactly that line, or the line
      follows a newline somewhere (with or without a line end after it). */
  function ContainsLine(content: string, line: string): (r: bool)
    ensures r <==> |content| > 0 && (content == line + "\n" || Occurs("\n" + line, content))
  {
    var withLf := Occurs("\n" + line + "\n", content);
    var withCrLf := Occurs("\n" + line + "\r\n", content);
    LineEndings(content, line);
    |content| > 0 && (content == line + "\n" || (|content| > 0 && (withLf || withCrLf || Occurs("\n" + line, content))))
  }

  /** A line followed by a line end is in particular a line. */
  lemma LineEndings(content: string, line: string)
    ensures Occurs("\n" + line + "\n", content) ==> Occurs("\n" + line, content)
    ensures Occurs("\n" + line + "\r\n", content) ==> Occurs("\n" + line, content)
  {
    if Occurs("\n" + line + "\n", content) {
      OccursPrefixOf("\n" + line, "\n", content);
    }
    if Occurs("\n" + line + "\r\n", content) {
      OccursPrefixOf("\n" + line, "\r\n", content);
    }
  }

  /** Reading a file: it is missing, has the given contents, or could not be
      read for another reason. */
  datatype FileRead = Missing | Contents(text: string) | ReadFailed(err: string)

  /** The text a read produced; a missing file reads as "". */
  function TextOf(f: FileRead): string {
    if f.Contents? then f.text else ""
  }

  /** Makes sure `.gitignore` has `line`: a read error other than a missing
      file is reported; content that is non-empty and already has the line
      is left alone; otherwise `line` and a newline are appended at the end
      of the file. `appendErr` is what opening or writing the file reports.
      The result is the text appended (None for nothing). */
  function EnsureGitIgnoreLine(f: FileRead, line: string, appendErr: Option<string>): (r: Result<Option<string>, string>)
    ensures f.ReadFailed? ==> r == Err(f.err)
    ensures !f.ReadFailed? && TextOf(f) != "" && ContainsLine(TextOf(f), line) ==> r == Ok(None)
    ensures !f.ReadFailed? && (TextOf(f) == "" || !ContainsLine(TextOf(f), line)) ==>
      r == (if appendErr.Some? then Err(appendErr.value) else Ok(Some(line + "\n")))
  {
    if f.ReadFailed? then Err(f.err)
    else if TextOf(f) != "" && ContainsLine(TextOf(f), line) then Ok(None)
    else if appendErr.Some? then Err(appendErr.value)
    else Ok(Some(line + "\n"))
  }

  /** The file's content after an update. */
  function AfterUpdate(f: FileRead, r: Result<Option<string>, string>): string {
    if r.Ok? && r.value.Some? then TextOf(f) + r.value.value else TextOf(f)
  }

  /** Once the line has been appended to content that was empty or ended
      with a newline, the file has the line, and a second call leaves it
      alone. */
  lemma GitIgnoreIdempotent(f: FileRead, line: string, appendErr: Option<string>)
    requires !f.ReadFailed?
    requires TextOf(f) == "" || TextOf(f)[|TextOf(f)| - 1] == '\n'
    requires EnsureGitIgnoreLine(f, line, appendErr).Ok?
    ensures var after := AfterUpdate(f, EnsureGitIgnoreLine(f, line, appendErr));
      && after != ""
      && ContainsLine(after, line)
      && EnsureGitIgnoreLine(Contents(after), line, appendErr) == Ok(None)
  {
    var text := TextOf(f);
    var r := EnsureGitIgnoreLine(f, line, appendErr);
    if r.value.Some? && text != "" {
      var after := text + (line + "\n");
      assert AfterUpdate(f, r) == after;
      var i := |text| - 1;
      assert after[i..] == "\n" + line + "\n";
      assert "\n" + line <= after[i..];
      OccursAt("\n" + line, after, i);
    }
  }

  /** A file holding a single line and no newline gets the appended line
      glued to that line (for instance "target" becomes "target.patty/\n").
      The file then does not have the line, so the next call appends it once more:
      `GitIgnoreIdempotent` needs its requirement on the earlier content. */
  lemma GitIgnoreGluesLine(text: string, line: string)
    requires text != "" && '\n' !in text
    requires line != "" && '\n' !in line
    ensures EnsureGitIgnoreLine(Contents(text), line, None) == Ok(Some(line + "\n"))
    ensures !ContainsLine(text + line + "\n", line)
    ensures EnsureGitIgnoreLine(Contents(text + line + "\n"), line, None) == Ok(Some(line + "\n"))
  {
    NoLineAfterNewline(text, line);
    var glued := text + line + "\n";
    assert glued[..|glued| - 1] == text + line;
    NoLineAfterNewline(glued, line);
  }

  /** A line that is the file's first line, with any number of further
      lines after it none of which starts with it, is not recognised:
      ".patty/\nfoo\n" does not have ".patty/" by this test, so the line is
      appended a second time. */
  lemma GitIgnoreMissesFirstLine(line: string, rest: string)
    requires line != "" && '\n' !in line
    requires rest != ""
    requires !(line <= rest)
    requires forall j :: 0 <= j < |rest| && rest[j] == '\n' ==> !(line <= rest[j + 1..])
    ensures !ContainsLine(line + "\n" + rest, line)
    ensures EnsureGitIgnoreLine(Contents(line + "\n" + rest), line, None) == Ok(Some(line + "\n"))
  {
    var text := line + "\n" + rest;
    forall i | 0 <= i <= |text| ensures !("\n" + line <= text[i..]) {
      if i < |line| {
        assert text[i] == line[i];
        assert line[i] in line;
      } else if i == |line| {
        assert text[i + 1..] == rest;
      } else {
        var j := i - |line| - 1;
        assert text[i..] == rest[j..];
        if j < |rest| && rest[j] == '\n' {
          assert rest[j..] == "\n" + rest[j + 1..];
        }
      }
    }
  }

  /** The first-line miss on a concrete file. */
  lemma GitIgnoreFirstLineExample()
    ensures EnsureGitIgnoreLine(Contents(".patty/\nfoo\n"), ".patty/", None) == Ok(Some(".patty/\n"))
  {
    assert ".patty/\nfoo\n" == ".patty/" + "\n" + "foo\n";
    assert "foo\n"[..3] == "foo";
    GitIgnoreMissesFirstLine(".patty/", "foo\n");
    assert ".patty/" + "\n" == ".patty/\n";
  }

  /** A text whose only newline, if any, is its last character has no line
      `line` after a newline. */
  lemma NoLineAfterNewline(text: string, line: string)
    requires line != ""
    requires text != [] ==> '\n' !in text[..|text| - 1]
    ensures !Occurs("\n" + line, text)
  {
    forall i | 0 <= i <= |text| ensures !("\n" + line <= text[i..]) {
      if i < |text| - 1 {
        assert text[i] in text[..|text| - 1];
      }
    }
  }

  // ---------------------------------------------------------------------------
  // install and update
  // ---------------------------------------------------------------------------

  const LockVersion := "0.1.0"
  const LockSource := "luarocks"
  const IgnoredDir := ".patty/"

  /** What `install` meets along the way: whether luarocks is on the path,
      the decoded manifest, what creating the .patty directory reports, the
      installer's outcome for each (name, version) (None for success), what
      writing the lock file and the loader file report, and the state of
      `.gitignore` together with what appending to it reports. */
  datatype InstallEnv = InstallEnv(
    luarocksFound: bool,
    decoded: Decoded,
    dirErr: Option<string>,
    install: (string, string) -> Option<string>,
    lockErr: Option<string>,
    loaderErr: Option<string>,
    gitignore: FileRead,
    gitignoreErr: Option<string>)

  /** What an `install` run did: its error, the packages it started to
      install in order, the lock file handed to the writer, and the text
      appended to `.gitignore`. */
  datatype InstallRun = InstallRun(
    err: Option<string>,
    attempted: seq<string>,
    lock: Option<LockFile>,
    ignored: Option<string>)

  /** The lock entries for `names`, in that order. */
  function LockEntries(names: seq<string>, deps: map<string, string>): (entries: seq<LockPackageSection>)
    requires forall n :: n in names ==> n in deps
    ensures |entries| == |names|
    ensures forall i :: 0 <= i < |names| ==>
      entries[i] == LockPackageSection(names[i], deps[names[i]], LockSource)
  {
    seq(|names|, i requires 0 <= i < |names| => LockPackageSection(names[i], deps[names[i]], LockSource))
  }

  /** Position of the first name in `names` whose installation fails, or
      `|names|` when every one succeeds. */
  function FirstFailure(names: seq<string>, deps: map<string, string>, install: (string, string) -> Option<string>): (k: nat)
    requires forall n :: n in names ==> n in deps
    ensures k <= |names|
    ensures forall j :: 0 <= j < k ==> install(names[j], deps[names[j]]).None?
    ensures k < |names| ==> install(names[k], deps[names[k]]).Some?
  {
    if names == [] then 0
    else if install(names[0], deps[names[0]]).Some? then 0
    else 1 + FirstFailure(names[1..], deps, install)
  }

  /** The dependency map `install` works on, once the manifest is loaded. */
  function Dependencies(m: Manifest): map<string, string> {
    WithDefaults(m).dependencies.value
  }

  /** What appending the `.patty/` line reports; its error is ignored. */
  function IgnoredText(env: InstallEnv): Option<string> {
    var r := EnsureGitIgnoreLine(env.gitignore, IgnoredDir, env.gitignoreErr);
    if r.Ok? then r.value else None
  }

  /** The outcome of `install`, step by step: luarocks must be present
      before the manifest is read; no dependencies means nothing to do; the
      .patty directory must be creatable; then the dependencies are
      installed in ascending order of name (see `InstallSorted`). */
  ghost function InstallSpec(env: InstallEnv): InstallRun {
    if !env.luarocksFound then InstallRun(Some(Luarocks.LuarocksMissing), [], None, None)
    else if env.decoded.DecodeFailed? then InstallRun(Some(env.decoded.err), [], None, None)
    else
      var deps := Dependencies(env.decoded.manifest);
      if |deps| == 0 then InstallRun(None, [], None, None)
      else if env.dirErr.Some? then InstallRun(env.dirErr, [], None, None)
      else InstallSorted(env, deps, Ascending(deps.Keys))
  }

  /** Installing the dependencies in the given order until one fails; after
      a run without failure, the lock (one entry per name, in that order)
      and the loader are written and the `.gitignore` line is added. */
  function InstallSorted(env: InstallEnv, deps: map<string, string>, order: seq<string>): InstallRun
    requires forall n :: n in order ==> n in deps
  {
    var k := FirstFailure(order, deps, env.install);
    if k < |order| then
      InstallRun(env.install(order[k], deps[order[k]]), order[..k + 1], None, None)
    else
      var lock := LockFile(LockMetaSection(LockVersion), LockEntries(order, deps));
      if env.lockErr.Some? then InstallRun(env.lockErr, order, Some(lock), None)
      else if env.loaderErr.Some? then InstallRun(env.loaderErr, order, Some(lock), None)
      else InstallRun(None, order, Some(lock), IgnoredText(env))
  }

  /** Whatever order the keys were collected in, sorting them gives the
      keys in ascending order, each once. */
  lemma SortedKeys(names: seq<string>, keys: set<string>)
    requires Distinct(names) && Elems(names) == keys
    ensures Sort(names) == Ascending(keys)
  {
    var sorted := Sort(names);
    SortCorrect(names);
    assert forall x :: x in sorted <==> x in multiset(sorted);
    assert forall x :: x in names <==> x in multiset(names);
    assert Elems(sorted) == keys;
    assert Distinct(sorted) by {
      forall x | x in sorted ensures multiset(sorted)[x] <= 1 {
        assert x in names;
      }
    }
    SortedDistinctStrictly(sorted);
    StrictlySortedUnique(sorted, Ascending(keys));
  }

  /** The keys of `deps` in the map's iteration order, which is arbitrary:
      each key exactly once. */
  method CollectKeys(deps: map<string, string>) returns (names: seq<string>)
    ensures Distinct(names)
    ensures Elems(names) == deps.Keys
  {
    names := [];
    var rest := deps.Keys;
    while rest != {}
      invariant Elems(names) + rest == deps.Keys
      invariant Elems(names) !! rest
      invariant Distinct(names)
      decreases rest
    {
      var k :| k in rest;
      assert k !in multiset(names);
      names := names + [k];
      rest := rest - {k};
    }
  }

  /** Installs `names` one at a time with their versions from `deps`; the
      first failure ends the loop. `attempted` is the names whose install
      was started: up to and including the first failure, or all of them. */
  method InstallInOrder(names: seq<string>, deps: map<string, string>, install: (string, string) -> Option<string>)
    returns (err: Option<string>, attempted: seq<string>)
    requires forall n :: n in names ==> n in deps
    ensures var k := FirstFailure(names, deps, install);
      if k < |names| then err == install(names[k], deps[names[k]]) && attempted == names[..k + 1]
      else err == None && attempted == names
  {
    attempted := [];
    for i := 0 to |names|
      invariant attempted == names[..i]
      invariant i <= FirstFailure(names, deps, install)
    {
      attempted := attempted + [names[i]];
      var e := install(names[i], deps[names[i]]);
      if e.Some? {
        FirstFailureAt(names, deps, install, i);
        return e, attempted;
      }
    }
    assert names[..|names|] == names;
    err := None;
  }

  /** The lock file for a run that installed `names`. */
  method BuildLock(names: seq<string>, deps: map<string, string>) returns (lock: LockFile)
    requires forall n :: n in names ==> n in deps
    ensures lock.meta.pattyVersion == LockVersion
    ensures lock.packages == LockEntries(names, deps)
  {
    lock := LockFile(LockMetaSection(LockVersion), []);
    for i := 0 to |names|
      invariant lock.meta.pattyVersion == LockVersion
      invariant lock.packages == LockEntries(names[..i], deps)
    {
      lock := lock.(packages := lock.packages + [LockPackageSection(names[i], deps[names[i]], LockSource)]);
    }
    assert names[..|names|] == names;
  }

  /** `install`: see `InstallSpec`. */
  method CmdInstall(env: InstallEnv) returns (run: InstallRun)
    ensures run == InstallSpec(env)
    ensures !env.luarocksFound ==>
      run.err == Some(Luarocks.LuarocksMissing) && run.attempted == [] && run.lock == None
    ensures env.luarocksFound && env.decoded.Decoded? && |Dependencies(env.decoded.manifest)| == 0 ==>
      run == InstallRun(None, [], None, None)
  {
    var found := Luarocks.CheckLuarocksInstalled(env.luarocksFound);
    if found.Some? {
      return InstallRun(found, [], None, None);
    }
    var m, loadErr := LoadManifest(env.decoded);
    if loadErr.Some? {
      return InstallRun(loadErr, [], None, None);
    }
    var deps := m.dependencies.value;
    if |deps| == 0 {
      return InstallRun(None, [], None, None);
    }
    if env.dirErr.Some? {
      return InstallRun(env.dirErr, [], None, None);
    }
    var names := CollectKeys(deps);
    SortedKeys(names, deps.Keys);
    names := Sort(names);
    var err, attempted := InstallInOrder(names, deps, env.install);
    if err.Some? {
      return InstallRun(err, attempted, None, None);
    }
    var lock := BuildLock(names, deps);
    if env.lockErr.Some? {
      return InstallRun(env.lockErr, names, Some(lock), None);
    }
    if env.loaderErr.Some? {
      return InstallRun(env.loaderErr, names, Some(lock), None);
    }
    var ignored := EnsureGitIgnoreLine(env.gitignore, IgnoredDir, env.gitignoreErr);
    run := InstallRun(None, names, Some(lock), if ignored.Ok? then ignored.value else None);
  }

  /** When the i-th installation is the first to fail, it is where
      `FirstFailure` stops. */
  lemma {:induction false} FirstFailureAt(names: seq<string>, deps: map<string, string>,
                                          install: (string, string) -> Option<string>, i: nat)
    requires forall n :: n in names ==> n in deps
    requires i < |names| && install(names[i], deps[names[i]]).Some?
    requires i <= FirstFailure(names, deps, install)
    ensures FirstFailure(names, deps, install) == i
  {
  }

  /** `update` is `install`. */
  method CmdUpdate(env: InstallEnv) returns (run: InstallRun)
    ensures run == InstallSpec(env)
  {
    run := CmdInstall(env);
  }

  /** The order of a run: the packages attempted are a prefix of the
      dependencies in ascending order; every one but the last succeeded;
      the run stops at the first failure, reporting that failure's error
      and saving no lock; a run that saves no lock attempted at least one
      package and reports an error; and a run that saves a lock attempted
      every dependency. */
  lemma InstallOrder(env: InstallEnv, deps: map<string, string>, order: seq<string>)
    requires forall n :: n in order ==> n in deps
    ensures var run := InstallSorted(env, deps, order);
      && run.attempted <= order
      && (forall j :: 0 <= j < |run.attempted| - 1 ==>
            env.install(run.attempted[j], deps[run.attempted[j]]).None?)
      && (run.lock.None? && run.attempted != [] ==>
            var last := run.attempted[|run.attempted| - 1];
            run.err == env.install(last, deps[last]) && run.err.Some?)
      && (run.lock.Some? ==> run.attempted == order)
    ensures InstallSorted(env, deps, order).lock.Some? <==>
      forall j :: 0 <= j < |order| ==> env.install(order[j], deps[order[j]]).None?
    ensures var run := InstallSorted(env, deps, order);
      run.lock.None? ==> run.err.Some? && run.attempted != []
  {
    var k := FirstFailure(order, deps, env.install);
    if k < |order| {
      assert InstallSorted(env, deps, order).attempted == order[..k + 1];
    }
  }

  /** The lock entries for the dependencies in ascending order describe
      the dependency map: one entry per key and no other, strictly ascending
      by name, each with the map's version and the luarocks source. */
  lemma LockEntriesDescribe(deps: map<string, string>)
    ensures var entries := LockEntries(Ascending(deps.Keys), deps);
      && |entries| == |deps|
      && (forall i, j :: 0 <= i < j < |entries| ==> Less(entries[i].name, entries[j].name))
      && (forall i :: 0 <= i < |entries| ==>
            && entries[i].name in deps
            && entries[i].version == deps[entries[i].name]
            && entries[i].source == LockSource)
      && (forall n :: n in deps ==> exists i :: 0 <= i < |entries| && entries[i].name == n)
  {
    var order := Ascending(deps.Keys);
    var entries := LockEntries(order, deps);
    forall n | n in deps ensures exists i :: 0 <= i < |entries| && entries[i].name == n {
      assert n in Elems(order);
      var i :| 0 <= i < |order| && order[i] == n;
      assert entries[i].name == n;
    }
  }

  /** The lock written after a successful run is the one for the loaded
      manifest's dependencies in ascending order, under meta version 0.1.0
      (so `LockEntriesDescribe` applies to it); a run that writes a lock
      attempted every dependency. */
  lemma LockDescribesManifest(env: InstallEnv)
    requires InstallSpec(env).lock.Some?
    ensures env.luarocksFound && env.decoded.Decoded? && env.dirErr.None?
    ensures var deps := Dependencies(env.decoded.manifest);
      var run := InstallSpec(env);
      && run.lock.value == LockFile(LockMetaSection(LockVersion), LockEntries(Ascending(deps.Keys), deps))
      && run.attempted == Ascending(deps.Keys)
      && |run.lock.value.packages| == |deps| > 0
      && (forall n :: n in deps ==> env.install(n, deps[n]).None?)
  {
    var deps := Dependencies(env.decoded.manifest);
    var order := Ascending(deps.Keys);
    assert InstallSpec(env) == InstallSorted(env, deps, order);
    InstallOrder(env, deps, order);
    forall n | n in deps ensures env.install(n, deps[n]).None? {
      assert n in Elems(order);
      var j :| 0 <= j < |order| && order[j] == n;
    }
  }
}

=== FILE: config.dfy ===
/** The project manifest (patty.toml) and the two operations on it that are
    more than a call into the TOML library: the normalisation done after
    decoding, and the guard plus default contents of `init`. */
module Config {
  import opened Wrappers

  /** The `[package]` table. */
  datatype PackageSection = PackageSection(name: string, version: string, lua: string)

  /** A manifest as the decoder fills it in. A table that is absent from the
      file leaves its map nil, written here as `None`. */
  datatype Manifest = Manifest(
    package: PackageSection,
    dependencies: Option<map<string, string>>,
    devDependencies: Option<map<string, string>>)

  /** What decoding patty.toml gave: a manifest, or the decoder's error (a
      missing or unreadable file is reported the same way). */
  datatype Decoded = Decoded(manifest: Manifest) | DecodeFailed(err: string)

  const AlreadyExists := "manifest file already exists"

  /** Go's zero value of `Manifest`: empty strings and nil maps. */
  function ZeroManifest(): Manifest {
    Manifest(PackageSection("", "", ""), None, None)
  }

  /** Both dependency maps are present. */
  predicate Normalized(m: Manifest) {
    m.dependencies.Some? && m.devDependencies.Some?
  }

  /** The manifest with each absent dependency map replaced by an empty one. */
  function WithDefaults(m: Manifest): Manifest {
    m.(dependencies := Some(m.dependencies.GetOr(map[])),
       devDependencies := Some(m.devDependencies.GetOr(map[])))
  }

  /** Filling in the defaults makes both maps present, turns an absent map
      into an empty one, and changes nothing that was already there. */
  lemma WithDefaultsNormalizes(m: Manifest)
    ensures Normalized(WithDefaults(m))
    ensures WithDefaults(m).package == m.package
    ensures m.dependencies.Some? ==> WithDefaults(m).dependencies == m.dependencies
    ensures m.dependencies.None? ==> WithDefaults(m).dependencies == Some(map[])
    ensures m.devDependencies.Some? ==> WithDefaults(m).devDependencies == m.devDependencies
    ensures m.devDependencies.None? ==> WithDefaults(m).devDependencies == Some(map[])
    ensures Normalized(m) ==> WithDefaults(m) == m
  {
  }

  /** Loads the manifest: on a decode failure the zero manifest comes back
      with the error; otherwise the decoded manifest with its nil maps
      replaced by empty ones. */
  method LoadManifest(decoded: Decoded) returns (m: Manifest, err: Option<string>)
    ensures decoded.DecodeFailed? ==> m == ZeroManifest() && err == Some(decoded.err)
    ensures decoded.Decoded? ==> err == None && Normalized(m)
    ensures decoded.Decoded? ==> m == WithDefaults(decoded.manifest)
  {
    if decoded.DecodeFailed? {
      return ZeroManifest(), Some(decoded.err);
    }
    m := decoded.manifest;
    if m.dependencies == None {
      m := m.(dependencies := Some(map[]));
    }
    if m.devDependencies == None {
      m := m.(devDependencies := Some(map[]));
    }
    err := None;
  }

  /** The outcome of a command that may write the manifest: its error, if
      any, and the manifest handed to the writer, if it got that far. */
  datatype ManifestWrite = ManifestWrite(err: Option<string>, written: Option<Manifest>)

  /** The manifest `init` writes. */
  function DefaultManifest(): Manifest {
    Manifest(PackageSection("my-project", "0.1.0", ">=5.1"), Some(map[]), Some(map[]))
  }

  /** Creates the manifest unless one exists. `manifestExists` is whether the file
      is already there; `saveErr` is what writing it reports. */
  function EnsureManifestExists(manifestExists: bool, saveErr: Option<string>): (r: ManifestWrite)
    ensures manifestExists ==> r.err == Some(AlreadyExists) && r.written == None
    ensures !manifestExists ==> r.err == saveErr && r.written.Some?
    ensures r.written.Some? ==>
      && r.written.value.package == PackageSection("my-project", "0.1.0", ">=5.1")
      && r.written.value.dependencies == Some(map[])
      && r.written.value.devDependencies == Some(map[])
  {
    if manifestExists then ManifestWrite(Some(AlreadyExists), None)
    else ManifestWrite(saveErr, Some(DefaultManifest()))
  }
}

=== FILE: lock.dfy ===
/** The record written to patty.lock after a successful install run. Writing
    it (file creation and TOML encoding) is not part of this model. */
module Lock {

  /** The `[meta]` table: the version of the tool that wrote the lock. */
  datatype LockMetaSection = LockMetaSection(pattyVersion: string)

  /** One `[[packages]]` entry. */
  datatype LockPackageSection = LockPackageSection(name: string, version: string, source: string)

  datatype LockFile = LockFile(meta: LockMetaSection, packages: seq<LockPackageSection>)
}

=== FILE: luarocks.dfy ===
/** The adapter around the external `luarocks` installer: the argument list
    for one package, the Windows compiler bootstrap (locating vcvarsall.bat,
    guessing the architecture, writing the batch wrapper), the command-line
    quoting, and the filtering of the installer's output. The process, the
    file system and the platform are parameters. */
module Luarocks {
  import opened Wrappers
  import opened Strings

  // ---------------------------------------------------------------------------
  // Availability and the argument list
  // ---------------------------------------------------------------------------

  const LuarocksMissing :=
    "luarocks was not found on your system\n\n" +
    "  Patty uses luarocks to fetch Lua packages. To install it:\n" +
    "    Windows:  choco install luarocks\n" +
    "    macOS:    brew install luarocks\n" +
    "    Linux:    sudo apt install luarocks (or your package manager)\n\n" +
    "  After installing, restart your terminal and try again"

  const CompilerMissing :=
    "this package contains native C code and needs a C compiler to build\n\n" +
    "  Visual Studio Build Tools with C++ workload is required.\n" +
    "  Install it by running (in an admin terminal):\n\n" +
    "    winget install Microsoft.VisualStudio.2022.BuildTools --override \"--quiet --add Microsoft.VisualStudio.Workload.VCTools --includeRecommended\"\n\n" +
    "  After installing, restart your terminal and try again"

  /** Whether `luarocks` is on the path decides the check; `found` stands for
      the lookup. */
  function CheckLuarocksInstalled(found: bool): (err: Option<string>)
    ensures err == None <==> found
    ensures err.Some? ==> err.value == LuarocksMissing
  {
    if found then None else Some(LuarocksMissing)
  }

  const TreeFlag := "--tree=.patty"
  const LocalFlag := "--local"

  /** The version names no particular release. */
  predicate Unpinned(version: string) {
    version == "" || version == "latest"
  }

  /** The luarocks arguments for one package: always a project-local,
      user-scoped install; the version is passed on verbatim unless it is
      empty or "latest". */
  function InstallArgs(pkg: string, version: string): (args: seq<string>)
    ensures |args| == (if Unpinned(version) then 4 else 5)
    ensures args[..2] == ["install", pkg]
    ensures args[|args| - 2..] == [TreeFlag, LocalFlag]
    ensures !Unpinned(version) ==> args[2] == version
  {
    if Unpinned(version) then ["install", pkg, TreeFlag, LocalFlag]
    else ["install", pkg, version, TreeFlag, LocalFlag]
  }

  // ---------------------------------------------------------------------------
  // Locating vcvarsall.bat
  // ---------------------------------------------------------------------------

  const Roots: seq<string> := [
    @"C:\Program Files (x86)\Microsoft Visual Studio",
    @"C:\Program Files\Microsoft Visual Studio"]
  const Years: seq<string> := ["2022", "2019", "2017"]
  const Editions: seq<string> := ["BuildTools", "Community", "Professional", "Enterprise"]

  /** `filepath.Join` on Windows; the components are already clean, so it
      puts one backslash between neighbours. */
  function VcvarsPath(root: string, year: string, edition: string): string {
    root + @"\" + year + @"\" + edition + @"\VC\Auxiliary\Build\vcvarsall.bat"
  }

  predicate InGrid(r: int, y: int, e: int) {
    0 <= r < |Roots| && 0 <= y < |Years| && 0 <= e < |Editions|
  }

  /** The probe for one root, year and edition. */
  function Candidate(r: int, y: int, e: int): (p: string)
    requires InGrid(r, y, e)
    ensures p != ""
  {
    VcvarsPath(Roots[r], Years[y], Editions[e])
  }

  /** Root-major, then year, then edition: (r', y', e') is probed before
      (r, y, e). */
  predicate Earlier(r': int, y': int, e': int, r: int, y: int, e: int) {
    r' < r || (r' == r && (y' < y || (y' == y && e' < e)))
  }

  /** The result of the search once every probe before (r, y, e) has been
      found missing: the first existing probe from (r, y, e) on, or "". */
  function SearchFrom(r: nat, y: nat, e: nat, fileExists: string -> bool): string
    requires r <= |Roots| && y <= |Years| && e <= |Editions|
    decreases |Roots| - r, |Years| - y, |Editions| - e
  {
    if r == |Roots| then ""
    else if y == |Years| then SearchFrom(r + 1, 0, 0, fileExists)
    else if e == |Editions| then SearchFrom(r, y + 1, 0, fileExists)
    else if fileExists(Candidate(r, y, e)) then Candidate(r, y, e)
    else SearchFrom(r, y, e + 1, fileExists)
  }

  /** Probes every root, year and edition in that nesting order and returns
      the first vcvarsall.bat that exists, or "" when there is none.
      `fileExists` stands for `os.Stat` succeeding. */
  method FindVcvarsall(fileExists: string -> bool) returns (p: string)
    ensures p == SearchFrom(0, 0, 0, fileExists)
  {
    for r := 0 to |Roots|
      invariant SearchFrom(0, 0, 0, fileExists) == SearchFrom(r, 0, 0, fileExists)
    {
      for y := 0 to |Years|
        invariant SearchFrom(0, 0, 0, fileExists) == SearchFrom(r, y, 0, fileExists)
      {
        for e := 0 to |Editions|
          invariant SearchFrom(0, 0, 0, fileExists) == SearchFrom(r, y, e, fileExists)
        {
          var candidate := VcvarsPath(Roots[r], Years[y], Editions[e]);
          if fileExists(candidate) {
            return candidate;
          }
        }
      }
    }
    return "";
  }

  /** The search in the terms of the grid. From (r, y, e) on, it yields ""
      exactly when no remaining probe exists, and otherwise the probe of
      some remaining (root, year, edition) that exists while every probe
      tried before it does not. */
  lemma {:induction false} SearchFromFirst(r: nat, y: nat, e: nat, fileExists: string -> bool)
    requires r <= |Roots| && y <= |Years| && e <= |Editions|
    ensures var p := SearchFrom(r, y, e, fileExists);
      && (p == "" <==>
            forall r', y', e' :: InGrid(r', y', e') && !Earlier(r', y', e', r, y, e) ==> !fileExists(Candidate(r', y', e')))
      && (p != "" ==>
            exists r1, y1, e1 :: InGrid(r1, y1, e1) && !Earlier(r1, y1, e1, r, y, e) &&
              p == Candidate(r1, y1, e1) && fileExists(p) &&
              (forall r', y', e' :: InGrid(r', y', e') && !Earlier(r', y', e', r, y, e) && Earlier(r', y', e', r1, y1, e1) ==>
                 !fileExists(Candidate(r', y', e'))))
    decreases |Roots| - r, |Years| - y, |Editions| - e
  {
    if r == |Roots| {
    } else if y == |Years| {
      SearchFromFirst(r + 1, 0, 0, fileExists);
    } else if e == |Editions| {
      SearchFromFirst(r, y + 1, 0, fileExists);
    } else if fileExists(Candidate(r, y, e)) {
      assert InGrid(r, y, e) && !Earlier(r, y, e, r, y, e);
    } else {
      SearchFromFirst(r, y, e + 1, fileExists);
    }
  }

  /** The whole search: "" exactly when none of the 2 x 3 x 4 probes exists;
      otherwise an existing probe such that every probe tried before it in
      root, year, edition order is missing. */
  lemma VcvarsSearchOrder(fileExists: string -> bool)
    ensures var p := SearchFrom(0, 0, 0, fileExists);
      && (p == "" <==> forall r, y, e :: InGrid(r, y, e) ==> !fileExists(Candidate(r, y, e)))
      && (p != "" ==>
            exists r, y, e :: InGrid(r, y, e) && p == Candidate(r, y, e) && fileExists(p) &&
              (forall r', y', e' :: InGrid(r', y', e') && Earlier(r', y', e', r, y, e) ==> !fileExists(Candidate(r', y', e'))))
  {
    SearchFromFirst(0, 0, 0, fileExists);
  }

  // ---------------------------------------------------------------------------
  // Quoting and joining the command line
  // ---------------------------------------------------------------------------

  /** An argument as it appears on the command line: wrapped in double
      quotes when it holds a space. */
  function Quoted(arg: string): string {
    if ' ' in arg then "\"" + arg + "\"" else arg
  }

  function QuoteAll(args: seq<string>): (r: seq<string>)
    ensures |r| == |args|
  {
    seq(|args|, i requires 0 <= i < |args| => Quoted(args[i]))
  }

  /** Reports whether `s` holds a space, scanning it from the left. */
  method ContainsSpace(s: string) returns (found: bool)
    ensures found <==> ' ' in s
  {
    for i := 0 to |s|
      invariant ' ' !in s[..i]
    {
      if s[i] == ' ' {
        return true;
      }
    }
    assert s[..|s|] == s;
    return false;
  }

  /** The arguments separated by single spaces, each one quoted when it
      holds a space; no arguments give "". */
  method JoinArgs(args: seq<string>) returns (line: string)
    ensures line == Join(QuoteAll(args), ' ')
    ensures args == [] ==> line == ""
  {
    line := "";
    for i := 0 to |args|
      invariant line == Join(QuoteAll(args[..i]), ' ')
    {
      if i > 0 {
        line := line + " ";
      }
      var spaced := ContainsSpace(args[i]);
      if spaced {
        line := line + "\"" + args[i] + "\"";
      } else {
        line := line + args[i];
      }
      assert QuoteAll(args[..i + 1]) == QuoteAll(args[..i]) + [Quoted(args[i])];
      JoinAppend(QuoteAll(args[..i]), Quoted(args[i]), ' ');
    }
    assert args[..|args|] == args;
  }

  /** Reads one argument off the front of a command line: a double-quoted
      run up to the closing quote, or else a run up to the next space. The
      rest of the line follows. */
  function ReadArg(s: string): (r: (string, string))
    requires s != ""
    ensures |r.1| <= |s|
    ensures r.1 != "" && r.1[0] != ' ' ==> |r.1| < |s|
  {
    if s[0] == '"' then
      var body := s[1..];
      if '"' in body then
        var k := IndexOf(body, '"');
        (body[..k], body[k + 1..])
      else (body, "")
    else if ' ' in s then
      var k := IndexOf(s, ' ');
      (s[..k], s[k..])
    else (s, "")
  }

  /** How a command interpreter reads a line back into arguments: arguments
      are separated by single spaces, and double quotes group a run that may
      hold spaces. */
  function ReadArgs(s: string): seq<string>
    decreases |s|
  {
    if s == "" then []
    else
      var (arg, rest) := ReadArg(s);
      if rest == "" then [arg]
      else if rest[0] == ' ' then [arg] + ReadArgs(rest[1..])
      else [arg] + ReadArgs(rest)
  }

  /** A quoted argument followed by nothing or by a space is read back as
      itself. */
  lemma ReadQuoted(arg: string, rest: string)
    requires arg != "" && '"' !in arg
    requires rest == "" || rest[0] == ' '
    ensures ReadArg(Quoted(arg) + rest) == (arg, rest)
  {
    var s := Quoted(arg) + rest;
    if ' ' in arg {
      assert s[0] == '"';
      assert s[1..] == arg + ['"'] + rest;
      IndexOfAfter(arg, '"', rest);
      assert s[1..][..|arg|] == arg && s[1..][|arg| + 1..] == rest;
    } else {
      assert s[0] == arg[0];
      if rest == "" {
        assert s == arg;
      } else {
        assert s == arg + [' '] + rest[1..];
        IndexOfAfter(arg, ' ', rest[1..]);
        assert s[|arg|..] == rest;
      }
    }
  }

  /** Quoting makes the joined command line read back into exactly the
      original arguments, provided none is empty or holds a double quote. */
  lemma {:induction false} CommandLineRoundTrip(args: seq<string>)
    requires forall a :: a in args ==> a != "" && '"' !in a
    ensures ReadArgs(Join(QuoteAll(args), ' ')) == args
    decreases |args|
  {
    if |args| == 1 {
      assert args[0] in args;
      ReadQuoted(args[0], "");
      assert Quoted(args[0]) + "" == Quoted(args[0]);
    } else if |args| > 1 {
      var tail := Join(QuoteAll(args[1..]), ' ');
      assert QuoteAll(args)[1..] == QuoteAll(args[1..]);
      assert Join(QuoteAll(args), ' ') == Quoted(args[0]) + (" " + tail);
      assert args[0] in args;
      ReadQuoted(args[0], " " + tail);
      forall a | a in args[1..] ensures a in args {}
      CommandLineRoundTrip(args[1..]);
      assert (" " + tail)[1..] == tail;
    }
  }

  // ---------------------------------------------------------------------------
  // Lower-casing and substring search, written out by hand in the source
  // ---------------------------------------------------------------------------

  /** Lower-cases `s` byte by byte into a fresh buffer: only 'A'..'Z' change,
      to the matching 'a'..'z'; the length is kept. */
  method ToLower(s: string) returns (r: string)
    ensures |r| == |s|
    ensures forall i :: 0 <= i < |s| ==>
      if IsUpper(s[i]) then r[i] as int == s[i] as int + 32 else r[i] == s[i]
    ensures r == Lower(s)
  {
    var b := new char[|s|];
    for i := 0 to |s|
      invariant forall j :: 0 <= j < i ==> b[j] == LowerChar(s[j])
    {
      var c := s[i];
      if 'A' <= c <= 'Z' {
        c := (c as int + ('a' as int - 'A' as int)) as char;
      }
      b[i] := c;
    }
    r := b[..];
  }

  /** Scans `s` for `sub` at every start position, after ruling out a `sub`
      longer than `s`. */
  method ContainsStr(s: string, sub: string) returns (found: bool)
    ensures found <==> Occurs(sub, s)
    ensures |sub| > |s| ==> !found
    ensures sub == "" ==> found
  {
    if |sub| > |s| {
      return false;
    }
    var i := 0;
    while i + |sub| <= |s|
      invariant 0 <= i <= |s| - |sub| + 1
      invariant forall j :: 0 <= j < i ==> !(sub <= s[j..])
      invariant sub == "" ==> i == 0
    {
      if s[i..i + |sub|] == sub {
        OccursAt(sub, s, i);
        return true;
      }
      i := i + 1;
    }
    return false;
  }

  // ---------------------------------------------------------------------------
  // Architecture guess
  // ---------------------------------------------------------------------------

  /** The lower-cased path contains a marker of a 32-bit installation. */
  predicate Has32BitMarker(lower: string) {
    Occurs("win32", lower) || Occurs("x86", lower) ||
    Occurs("program files (x86)", lower) || Occurs("32bit", lower)
  }

  /** A non-empty path that, lower-cased, carries a 32-bit marker. */
  predicate Looks32Bit(path: string) {
    path != "" && Has32BitMarker(Lower(path))
  }

  /** The architecture tag handed to vcvarsall.bat. */
  function ArchTag(luarocksPath: string, luaPath: string): string {
    if Looks32Bit(luarocksPath) || Looks32Bit(luaPath) then "x86" else "x64"
  }

  /** Guesses 32- or 64-bit from where `luarocks` and `lua` were found ("" for
      a program that was not found, which is skipped): "x86" exactly when one
      of the paths, lower-cased, holds a 32-bit marker, "x64" otherwise. */
  method DetectLuaArch(luarocksPath: string, luaPath: string) returns (arch: string)
    ensures arch == "x86" || arch == "x64"
    ensures arch == "x86" <==> Looks32Bit(luarocksPath) || Looks32Bit(luaPath)
    ensures arch == ArchTag(luarocksPath, luaPath)
  {
    var paths := [luarocksPath, luaPath];
    for i := 0 to |paths|
      invariant forall j :: 0 <= j < i ==> !Looks32Bit(paths[j])
    {
      var p := paths[i];
      if p == "" {
        continue;
      }
      var lower := ToLower(p);
      var hit := ContainsStr(lower, "win32");
      if !hit {
        hit := ContainsStr(lower, "x86");
      }
      if !hit {
        hit := ContainsStr(lower, "program files (x86)");
      }
      if !hit {
        hit := ContainsStr(lower, "32bit");
      }
      if hit {
        return "x86";
      }
    }
    assert paths[0] == luarocksPath && paths[1] == luaPath;
    return "x64";
  }

  /** The guess ignores letter case in the paths. */
  lemma ArchTagIgnoresCase(luarocksPath: string, luaPath: string)
    ensures ArchTag(Lower(luarocksPath), Lower(luaPath)) == ArchTag(luarocksPath, luaPath)
  {
    LowerIdempotent(luarocksPath);
    LowerIdempotent(luaPath);
  }

  /** The "program files (x86)" marker is subsumed by the "x86" marker. */
  lemma X86MarkerSubsumes(lower: string)
    ensures Occurs("program files (x86)", lower) ==> Occurs("x86", lower)
  {
    assert "program files (x86)" == "program files (" + "x86" + ")";
    if Occurs("program files (x86)", lower) {
      OccursInfix("program files (", "x86", ")", lower);
    }
  }

  // ---------------------------------------------------------------------------
  // The batch wrapper
  // ---------------------------------------------------------------------------

  const ExitLine := "@if errorlevel 1 exit /b 1"

  /** First line of the wrapper: set up the compiler environment for `arch`,
      silently. */
  function CallLine(vcvars: string, arch: string): string {
    "@call \"" + vcvars + "\" " + arch + " >nul 2>&1"
  }

  /** Last line of the wrapper: run the installer command. */
  function RunLine(command: string): string {
    "@" + command + " 2>&1"
  }

  /** The text of the temporary .bat file (one `fmt.Sprintf`): the three
      lines, each ended by a newline. */
  function BatchScript(vcvars: string, arch: string, command: string): string {
    CallLine(vcvars, arch) + "\n" + ExitLine + "\n" + RunLine(command) + "\n"
  }

  /** The wrapper's lines hold no newline of their own when their inputs do
      not. */
  lemma LinesSingle(vcvars: string, arch: string, command: string)
    requires '\n' !in vcvars && '\n' !in arch && '\n' !in command
    ensures '\n' !in CallLine(vcvars, arch)
    ensures '\n' !in ExitLine
    ensures '\n' !in RunLine(command)
  {
  }

  lemma JoinFour(a: string, b: string, c: string)
    ensures Join([a, b, c, ""], '\n') == a + "\n" + b + "\n" + c + "\n"
  {
    JoinAppend([a], b, '\n');
    JoinAppend([a, b], c, '\n');
    JoinAppend([a, b, c], "", '\n');
    assert [a] + [b] == [a, b];
    assert [a, b] + [c] == [a, b, c];
    assert [a, b, c] + [""] == [a, b, c, ""];
  }

  /** Provided the vcvarsall.bat path, the architecture tag and the installer
      command (which carries the package name and version verbatim) hold no
      newline, the wrapper consists of exactly three newline-terminated
      lines: the environment setup for the architecture tag, the abort when
      that failed, and the installer command. */
  lemma ScriptLines(vcvars: string, arch: string, command: string)
    requires '\n' !in vcvars && '\n' !in arch && '\n' !in command
    ensures Split(BatchScript(vcvars, arch, command), '\n') ==
            [CallLine(vcvars, arch), ExitLine, RunLine(command), ""]
  {
    var lines := [CallLine(vcvars, arch), ExitLine, RunLine(command), ""];
    JoinFour(CallLine(vcvars, arch), ExitLine, RunLine(command));
    LinesSingle(vcvars, arch, command);
    SplitJoin(lines, '\n');
  }

  /** A newline inside the installer command, as a package name or version
      holding one puts there, splits the command over two lines of the
      wrapper: the command interpreter then runs the piece after the newline
      as a command of its own. */
  lemma NewlineAddsScriptLine(vcvars: string, arch: string, c1: string, c2: string)
    requires '\n' !in vcvars && '\n' !in arch && '\n' !in c1 && '\n' !in c2
    ensures Split(BatchScript(vcvars, arch, c1 + "\n" + c2), '\n') ==
            [CallLine(vcvars, arch), ExitLine, "@" + c1, c2 + " 2>&1", ""]
  {
    var call := CallLine(vcvars, arch);
    var lines := [call, ExitLine, "@" + c1, c2 + " 2>&1", ""];
    JoinFive(call, ExitLine, "@" + c1, c2 + " 2>&1", "", '\n');
    assert BatchScript(vcvars, arch, c1 + "\n" + c2) == Join(lines, '\n');
    LinesSingle(vcvars, arch, c1);
    assert '\n' !in c2 + " 2>&1";
    SplitJoin(lines, '\n');
  }

  /** Characters the Windows command interpreter acts on outside double
      quotes: redirection, chaining and piping, its escape character,
      variable expansion and line ends. */
  predicate CmdPlain(s: string) {
    forall c :: c in s ==> c !in {'<', '>', '&', '|', '^', '%', '\n', '\r'}
  }

  /** Whatever route it takes, the installer receives the same arguments:
      the command line in the wrapper reads back into the argument list of
      the direct call, provided the package name is non-empty, neither name
      nor version holds a double quote, and neither holds a character the
      command interpreter acts on (`ReadArgs` models only spaces and
      quotes). */
  lemma WrapperPassesSameArgs(pkg: string, version: string)
    requires pkg != "" && '"' !in pkg && '"' !in version
    requires CmdPlain(pkg) && CmdPlain(version)
    ensures ReadArgs(Join(QuoteAll(InstallArgs(pkg, version)), ' ')) == InstallArgs(pkg, version)
  {
    var args := InstallArgs(pkg, version);
    assert args[0] == "install" && args[1] == pkg;
    forall a | a in args ensures a != "" && '"' !in a {
      var i :| 0 <= i < |args| && args[i] == a;
      assert i >= 2 ==> a in args[|args| - 2..] || (i == 2 && a == version);
    }
    CommandLineRoundTrip(args);
  }

  /** A pinned version without a space reaches the wrapper's command line
      verbatim and unquoted, between spaces: a constraint such as ">=1.0"
      stands there as `>=1.0`, which the command interpreter reads as an
      output redirection rather than as an argument. */
  lemma VersionUnquotedInWrapper(pkg: string, version: string)
    requires !Unpinned(version) && ' ' !in version
    ensures Occurs(" " + version + " " + TreeFlag,
                   RunLine("luarocks " + Join(QuoteAll(InstallArgs(pkg, version)), ' ')))
  {
    var args := InstallArgs(pkg, version);
    var q := QuoteAll(args);
    var install, name := Quoted("install"), Quoted(pkg);
    assert Quoted(version) == version;
    assert Quoted(TreeFlag) == TreeFlag && Quoted(LocalFlag) == LocalFlag;
    assert q == [install, name, version, TreeFlag, LocalFlag];
    JoinFive(install, name, version, TreeFlag, LocalFlag, ' ');
    RunLineParts(install, name, version, TreeFlag, LocalFlag);
  }

  /** Where the third argument stands in the installer's run line. */
  lemma RunLineParts(i: string, n: string, v: string, t: string, l: string)
    ensures Occurs(" " + v + " " + t, RunLine("luarocks " + (i + " " + n + " " + v + " " + t + " " + l)))
  {
    var head := "@luarocks " + i + " " + n;
    var tail := " " + v + " " + t;
    var last := " " + l + " 2>&1";
    assert RunLine("luarocks " + (i + " " + n + " " + v + " " + t + " " + l)) == head + tail + last;
    OccursMiddle(head, tail, last);
  }

  // ---------------------------------------------------------------------------
  // Output filtering
  // ---------------------------------------------------------------------------

  const SkipMarkers: seq<string> := [
    "microsoft (r) incremental linker",
    "copyright (c) microsoft corporation",
    "creating library",
    "cl /nologo",
    "link -dll",
    "no existing manifest",
    "visual studio",
    "vcvarsall.bat",
    "environment initialized"]

  const KeepMarkers: seq<string> := ["error", "warning", "installing", "is now installed", "failed"]

  /** Toolchain chatter: a skip marker in the lower-cased line, a line that
      starts with "**" once trimmed, or a blank line. */
  predicate Noise(line: string) {
    || (exists m :: m in SkipMarkers && Occurs(m, Lower(line)))
    || "**" <= TrimSpace(line)
    || TrimSpace(line) == ""
  }

  /** The lower-cased line holds a keep marker. */
  predicate Important(line: string) {
    exists m :: m in KeepMarkers && Occurs(m, Lower(line))
  }

  /** Skipping wins over keeping. */
  predicate Shown(line: string) {
    !Noise(line) && Important(line)
  }

  /** `a` is `b` with some elements left out, the rest in their order. */
  predicate IsSubsequence(a: seq<string>, b: seq<string>)
    decreases |b|
  {
    if a == [] then true
    else if b == [] then false
    else (a[|a| - 1] == b[|b| - 1] && IsSubsequence(a[..|a| - 1], b[..|b| - 1]))
         || IsSubsequence(a, b[..|b| - 1])
  }

  /** The lines the filter keeps: exactly the shown lines of the input, in
      their original order. */
  function ShownLines(lines: seq<string>): (kept: seq<string>)
    ensures |kept| <= |lines|
    ensures IsSubsequence(kept, lines)
    ensures forall l :: l in kept ==> l in lines && Shown(l)
    ensures forall l :: l in lines && Shown(l) ==> l in kept
    ensures forall l :: multiset(kept)[l] == (if Shown(l) then multiset(lines)[l] else 0)
  {
    if lines == [] then []
    else
      var init, last := lines[..|lines| - 1], lines[|lines| - 1];
      assert lines == init + [last];
      var kept := ShownLines(init);
      if Shown(last) then
        assert (kept + [last])[..|kept|] == kept;
        kept + [last]
      else
        kept
  }

  /** Keeps the lines of the installer's output that matter to the user and
      joins them with newlines; the result is "" exactly when no line is
      kept. The output arrives already split into lines. */
  method FilterCompilerOutput(lines: seq<string>) returns (text: string)
    ensures text == Join(ShownLines(lines), '\n')
    ensures text == "" <==> ShownLines(lines) == []
  {
    var filtered: seq<string> := [];
    for i := 0 to |lines|
      invariant filtered == ShownLines(lines[..i])
    {
      var line := lines[i];
      assert lines[..i + 1][..i] == lines[..i];
      if Noise(line) {
        continue;
      }
      if Important(line) {
        filtered := filtered + [line];
      }
    }
    assert lines[..|lines|] == lines;
    text := Join(filtered, '\n');
    if filtered != [] {
      ShownNotBlank(filtered[0]);
      assert filtered[0] != "";
      assert |filtered| > 1 ==> text == filtered[0] + ['\n'] + Join(filtered[1..], '\n');
    }
  }

  /** A shown line has a non-white-space character. */
  lemma ShownNotBlank(line: string)
    requires Shown(line)
    ensures !Blank(line)
  {
    TrimSpaceBlank(line);
  }

  /** What the filter keeps, spelled out: every kept line comes from the
      input, holds a keep marker, holds no skip marker, does not start with
      "**" after trimming and is not blank; and the newline-joined text
      splits back into the kept lines. */
  lemma FilterKeeps(lines: seq<string>)
    requires forall l :: l in lines ==> '\n' !in l
    ensures forall l :: l in ShownLines(lines) ==>
      && l in lines
      && (exists m :: m in KeepMarkers && Occurs(m, Lower(l)))
      && (forall m :: m in SkipMarkers ==> !Occurs(m, Lower(l)))
      && !("**" <= TrimSpace(l))
      && !Blank(l)
    ensures ShownLines(lines) != [] ==> Split(Join(ShownLines(lines), '\n'), '\n') == ShownLines(lines)
  {
    var kept := ShownLines(lines);
    forall l | l in kept ensures !Blank(l) {
      ShownNotBlank(l);
    }
    if kept != [] {
      SplitJoin(kept, '\n');
    }
  }

  // ---------------------------------------------------------------------------
  // Installing one package
  // ---------------------------------------------------------------------------

  /** Where the installer runs: the operating system, whether `cl` is on the
      path, which files exist, and where `luarocks` and `lua` were found (""
      for not found). */
  datatype Host = Host(
    windows: bool,
    clOnPath: bool,
    fileExists: string -> bool,
    luarocksPath: string,
    luaPath: string)

  /** Creating and then writing the temporary .bat file. */
  datatype TempScript = TempWritten | CreateFailed(err: string) | WriteFailed(err: string)

  /** A subprocess: `luarocks` with arguments, or `cmd /C` on a batch file
      with the given text. */
  datatype Invocation = Direct(args: seq<string>) | Batch(script: string)

  /** What a subprocess reports: its error (None for exit status zero) and
      its combined output, split into lines. */
  datatype RunResult = RunResult(err: Option<string>, output: seq<string>)

  /** The subprocess's error is passed on; on failure the filtered output is
      what reaches the user. */
  predicate Reported(result: RunResult, err: Option<string>, shown: string) {
    && err == result.err
    && shown == (if result.err.Some? then Join(ShownLines(result.output), '\n') else "")
  }

  /** Installs one package. Off Windows, or with `cl` on the path, runs
      luarocks directly. Otherwise locates vcvarsall.bat (failing with the
      compiler-missing message, running nothing, when there is none) and runs
      a batch wrapper that sets up the compiler environment for the guessed
      architecture and then the same luarocks command. `ran` is the process
      started, if any; `shown` is what is printed to standard error. */
  method InstallPackage(pkg: string, version: string, host: Host, temp: TempScript, run: Invocation -> RunResult)
    returns (err: Option<string>, ran: Option<Invocation>, shown: string)
    ensures var args := InstallArgs(pkg, version);
      if host.windows && !host.clOnPath then
        var vcvars := SearchFrom(0, 0, 0, host.fileExists);
        var script := BatchScript(vcvars, ArchTag(host.luarocksPath, host.luaPath),
                                  "luarocks " + Join(QuoteAll(args), ' '));
        if vcvars == "" then err == Some(CompilerMissing) && ran == None && shown == ""
        else if temp.CreateFailed? then
          err == Some("failed to create temp script: " + temp.err) && ran == None && shown == ""
        else if temp.WriteFailed? then
          err == Some("failed to write temp script: " + temp.err) && ran == None && shown == ""
        else
          ran == Some(Batch(script)) && Reported(run(Batch(script)), err, shown)
      else
        ran == Some(Direct(args)) && Reported(run(Direct(args)), err, shown)
  {
    var args := InstallArgs(pkg, version);
    if host.windows && !host.clOnPath {
      var vcvars := FindVcvarsall(host.fileExists);
      if vcvars == "" {
        return Some(CompilerMissing), None, "";
      }
      var joined := JoinArgs(args);
      var luarocksCmd := "luarocks " + joined;
      var arch := DetectLuaArch(host.luarocksPath, host.luaPath);
      var script := BatchScript(vcvars, arch, luarocksCmd);
      match temp {
        case CreateFailed(e) =>
          return Some("failed to create temp script: " + e), None, "";
        case WriteFailed(e) =>
          return Some("failed to write temp script: " + e), None, "";
        case TempWritten =>
      }
      ran := Some(Batch(script));
      var result := run(Batch(script));
      err, shown := result.err, "";
      if result.err.Some? {
        shown := FilterCompilerOutput(result.output);
      }
      return;
    }
    ran := Some(Direct(args));
    var result := run(Direct(args));
    err, shown := result.err, "";
    if result.err.Some? {
      shown := FilterCompilerOutput(result.output);
    }
  }
}

=== FILE: sorting.dfy ===
/** Ordering names the way Go's `sort.Strings` does: ascending byte order.
    The library's in-place algorithm is stood in for by insertion sort on a
    sequence; what matters to the core is that the result is sorted and a
    permutation of the input. */
module Sorting {
  import opened Strings

  /** The set of elements of a sequence. */
  function Elems(s: seq<string>): set<string> {
    set x | x in s
  }

  /** No element sorts strictly before an element in front of it. */
  predicate Sorted(s: seq<string>) {
    forall i, j :: 0 <= i < j < |s| ==> !Less(s[j], s[i])
  }

  /** Every element sorts strictly before every element behind it. */
  predicate StrictlySorted(s: seq<string>) {
    forall i, j :: 0 <= i < j < |s| ==> Less(s[i], s[j])
  }

  /** No element occurs twice. */
  predicate Distinct(s: seq<string>) {
    forall x | x in s :: multiset(s)[x] <= 1
  }

  /** `x` placed in front of the first element that does not sort before it. */
  function Insert(x: string, s: seq<string>): seq<string>
  {
    if s == [] then [x]
    else if !Less(s[0], x) then [x] + s
    else [s[0]] + Insert(x, s[1..])
  }

  /** Insertion sort. */
  function Sort(s: seq<string>): seq<string>
  {
    if s == [] then [] else Insert(s[0], Sort(s[1..]))
  }

  /** "Sorts no later than" is transitive. */
  lemma NotLessTransitive(a: string, b: string, c: string)
    requires !Less(b, a) && !Less(c, b)
    ensures !Less(c, a)
  {
    LessTotal(a, b);
    LessTotal(b, c);
    if a != b && b != c {
      LessTransitive(a, b, c);
      LessAsymmetric(a, c);
    }
  }

  lemma {:induction false} InsertPermutes(x: string, s: seq<string>)
    ensures multiset(Insert(x, s)) == multiset(s) + multiset{x}
    decreases |s|
  {
    if s != [] && Less(s[0], x) {
      InsertPermutes(x, s[1..]);
      assert s == [s[0]] + s[1..];
    }
  }

  lemma {:induction false} InsertSorted(x: string, s: seq<string>)
    requires Sorted(s)
    ensures Sorted(Insert(x, s))
    decreases |s|
  {
    if s == [] {
    } else if !Less(s[0], x) {
      var r := [x] + s;
      forall i, j | 0 <= i < j < |r| ensures !Less(r[j], r[i]) {
        if i == 0 && j > 1 {
          NotLessTransitive(x, s[0], s[j - 1]);
        }
      }
    } else {
      var t := Insert(x, s[1..]);
      InsertSorted(x, s[1..]);
      InsertPermutes(x, s[1..]);
      var r := [s[0]] + t;
      forall i, j | 0 <= i < j < |r| ensures !Less(r[j], r[i]) {
        if i == 0 {
          assert r[j] in multiset(t);
          if r[j] == x {
            LessAsymmetric(s[0], x);
          } else {
            assert r[j] in s[1..];
          }
        }
      }
    }
  }

  /** Sorting yields a sorted permutation of its input. */
  lemma {:induction false} SortCorrect(s: seq<string>)
    ensures Sorted(Sort(s))
    ensures multiset(Sort(s)) == multiset(s)
    decreases |s|
  {
    if s != [] {
      SortCorrect(s[1..]);
      InsertSorted(s[0], Sort(s[1..]));
      InsertPermutes(s[0], Sort(s[1..]));
      assert s == [s[0]] + s[1..];
    }
  }

  /** A value at two different positions occurs twice. */
  lemma TwiceAt(s: seq<string>, i: nat, j: nat)
    requires i < j < |s| && s[i] == s[j]
    ensures multiset(s)[s[i]] >= 2
  {
    assert s == s[..j] + s[j..];
    assert s[i] in s[..j];
    assert s[j..][0] == s[j];
  }

  /** A sorted sequence without repetitions is strictly ascending. */
  lemma SortedDistinctStrictly(s: seq<string>)
    requires Sorted(s) && Distinct(s)
    ensures StrictlySorted(s)
  {
    forall i, j | 0 <= i < j < |s| ensures Less(s[i], s[j]) {
      if s[i] == s[j] {
        TwiceAt(s, i, j);
      }
      LessTotal(s[i], s[j]);
    }
  }

  /** The head of a strictly ascending sequence sorts no later than any
      element of it. */
  lemma HeadIsLeast(s: seq<string>, y: string)
    requires StrictlySorted(s) && y in s
    ensures !Less(y, s[0])
  {
    var k :| 0 <= k < |s| && s[k] == y;
    if k == 0 {
      LessIrreflexive(y);
    } else {
      LessAsymmetric(s[0], y);
    }
  }

  /** A set of names has only one strictly ascending arrangement: whatever
      order the names were collected in, sorting them gives the same
      sequence. */
  lemma {:induction false} StrictlySortedUnique(a: seq<string>, b: seq<string>)
    requires StrictlySorted(a) && StrictlySorted(b)
    requires Elems(a) == Elems(b)
    ensures a == b
    decreases |a|
  {
    if a != [] && b != [] {
      assert b[0] in Elems(a) && a[0] in Elems(b);
      HeadIsLeast(a, b[0]);
      HeadIsLeast(b, a[0]);
      LessTotal(a[0], b[0]);
      assert Elems(a[1..]) == Elems(b[1..]) by {
        forall y | y in a[1..] ensures y != a[0] {
          LessIrreflexive(a[0]);
        }
        forall y | y in b[1..] ensures y != b[0] {
          LessIrreflexive(b[0]);
        }
        assert Elems(a) == {a[0]} + Elems(a[1..]);
        assert Elems(b) == {b[0]} + Elems(b[1..]);
      }
      StrictlySortedUnique(a[1..], b[1..]);
    } else {
      ElemsEmpty(a);
      ElemsEmpty(b);
    }
  }

  lemma ElemsEmpty(s: seq<string>)
    ensures Elems(s) == {} <==> s == []
  {
    if s != [] {
      assert s[0] in Elems(s);
    }
  }

  /** Some listing of the elements of a finite set, each once. */
  ghost function Listing(keys: set<string>): seq<string>
    decreases keys
  {
    if keys == {} then [] else
    var k :| k in keys;
    [k] + Listing(keys - {k})
  }

  lemma {:induction false} ListingExact(keys: set<string>)
    ensures Elems(Listing(keys)) == keys
    ensures Distinct(Listing(keys))
    decreases keys
  {
    if keys != {} {
      var k :| k in keys && Listing(keys) == [k] + Listing(keys - {k});
      var rest := Listing(keys - {k});
      ListingExact(keys - {k});
      assert Elems([k] + rest) == {k} + Elems(rest);
      assert k !in multiset(rest);
      assert multiset([k] + rest) == multiset{k} + multiset(rest);
    }
  }

  /** The names of `keys` in ascending byte order: each key exactly once,
      strictly ascending. By `StrictlySortedUnique` it is the only such
      sequence. */
  ghost function Ascending(keys: set<string>): (r: seq<string>)
    ensures StrictlySorted(r)
    ensures Elems(r) == keys
    ensures |r| == |keys|
  {
    SortListingExact(keys);
    Sort(Listing(keys))
  }

  /** Sorting a listing of a set keeps each element exactly once. */
  lemma SortListingExact(keys: set<string>)
    ensures StrictlySorted(Sort(Listing(keys)))
    ensures Elems(Sort(Listing(keys))) == keys
    ensures |Sort(Listing(keys))| == |keys|
  {
    var l := Listing(keys);
    ListingExact(keys);
    SortCorrect(l);
    var r := Sort(l);
    assert forall x :: x in r <==> x in multiset(r);
    assert Elems(r) == Elems(l);
    SortedDistinctStrictly(r);
    DistinctCard(r);
  }

  /** A sequence without repetitions has as many elements as its set. */
  lemma {:induction false} DistinctCard(s: seq<string>)
    requires Distinct(s)
    ensures |Elems(s)| == |s|
    decreases |s|
  {
    if s != [] {
      var t := s[1..];
      assert s == [s[0]] + t;
      assert multiset(s) == multiset{s[0]} + multiset(t);
      forall x ensures multiset(t)[x] <= 1 {
        assert multiset(t)[x] <= multiset(s)[x];
      }
      DistinctCard(t);
      assert s[0] in s;
      assert multiset(s)[s[0]] == 1 + multiset(t)[s[0]];
      assert s[0] !in multiset(t);
      assert Elems(s) == {s[0]} + Elems(t);
    }
  }
}

=== FILE: strings.dfy ===
/** Specification-level counterparts of the Go `strings` functions and string
    operators the core relies on. A string is a sequence of characters, one
    character per byte of the Go string (the core only handles ASCII text). */
module Strings {

  // ---------------------------------------------------------------------------
  // Substring search (`strings.Contains`)
  // ---------------------------------------------------------------------------

  /** `sub` occurs contiguously somewhere in `s`. */
  predicate Occurs(sub: string, s: string) {
    exists i :: 0 <= i <= |s| && sub <= s[i..]
  }

  lemma OccursAt(sub: string, s: string, i: nat)
    requires i <= |s| && sub <= s[i..]
    ensures Occurs(sub, s)
  {
  }

  /** Whatever contains `x + y` contains `x`. */
  lemma OccursPrefixOf(x: string, y: string, s: string)
    requires Occurs(x + y, s)
    ensures Occurs(x, s)
  {
    var i :| 0 <= i <= |s| && x + y <= s[i..];
    assert x <= s[i..];
  }

  /** Whatever contains `x + y + z` contains `y`. */
  lemma OccursInfix(x: string, y: string, z: string, s: string)
    requires Occurs(x + y + z, s)
    ensures Occurs(y, s)
  {
    var i :| 0 <= i <= |s| && x + y + z <= s[i..];
    assert s[i + |x|..][..|y|] == y;
    OccursAt(y, s, i + |x|);
  }

  // ---------------------------------------------------------------------------
  // ASCII lower-casing
  // ---------------------------------------------------------------------------

  predicate IsUpper(c: char) {
    'A' <= c <= 'Z'
  }

  /** The lower-case letter for an upper-case ASCII letter; every other
      character is left as it is. */
  function LowerChar(c: char): char {
    if IsUpper(c) then (c as int + ('a' as int - 'A' as int)) as char else c
  }

  function Lower(s: string): (r: string)
    ensures |r| == |s|
  {
    seq(|s|, i requires 0 <= i < |s| => LowerChar(s[i]))
  }

  /** Lower-casing leaves no upper-case letter behind, so doing it twice is
      the same as doing it once. */
  lemma LowerIdempotent(s: string)
    ensures Lower(Lower(s)) == Lower(s)
  {
    forall i | 0 <= i < |s|
      ensures Lower(Lower(s))[i] == Lower(s)[i]
    {
      assert !IsUpper(LowerChar(s[i]));
    }
  }

  // ---------------------------------------------------------------------------
  // Byte-wise ordering of strings (Go's `<` on strings, used by `sort.Strings`)
  // ---------------------------------------------------------------------------

  /** `a` sorts strictly before `b`: at the first differing position `a` has
      the smaller character, or `a` is a proper prefix of `b`. */
  predicate Less(a: string, b: string)
    decreases |a|
  {
    if b == [] then false
    else if a == [] then true
    else if a[0] != b[0] then a[0] < b[0]
    else Less(a[1..], b[1..])
  }

  lemma {:induction false} LessIrreflexive(a: string)
    ensures !Less(a, a)
    decreases |a|
  {
    if a != [] {
      LessIrreflexive(a[1..]);
    }
  }

  lemma {:induction false} LessAsymmetric(a: string, b: string)
    requires Less(a, b)
    ensures !Less(b, a)
    decreases |a|
  {
    if a != [] && a[0] == b[0] {
      LessAsymmetric(a[1..], b[1..]);
    }
  }

  lemma {:induction false} LessTransitive(a: string, b: string, c: string)
    requires Less(a, b) && Less(b, c)
    ensures Less(a, c)
    decreases |a|
  {
    if a != [] && a[0] == b[0] && b[0] == c[0] {
      LessTransitive(a[1..], b[1..], c[1..]);
    }
  }

  /** Two different strings are always ordered one way or the other. */
  lemma {:induction false} LessTotal(a: string, b: string)
    ensures a == b || Less(a, b) || Less(b, a)
    decreases |a|
  {
    if a != [] && b != [] && a[0] == b[0] {
      LessTotal(a[1..], b[1..]);
      if a[1..] == b[1..] {
        assert a == [a[0]] + a[1..] && b == [b[0]] + b[1..];
      }
    }
  }

  // ---------------------------------------------------------------------------
  // Joining with and splitting at a separator (`strings.Join`, line splitting)
  // ---------------------------------------------------------------------------

  /** Position of the first `c` in `s`. */
  function IndexOf(s: string, c: char): (i: nat)
    requires c in s
    ensures i < |s| && s[i] == c && c !in s[..i]
  {
    if s[0] == c then 0 else 1 + IndexOf(s[1..], c)
  }

  /** The first position of `c` in `a + [c] + b` when `a` holds no `c`. */
  lemma IndexOfAfter(a: string, c: char, b: string)
    requires c !in a
    ensures IndexOf(a + [c] + b, c) == |a|
  {
    var s := a + [c] + b;
    assert s[..|a|] == a;
    assert s[|a|] in s[..|a| + 1];
  }

  /** The parts with one `sep` between neighbours; no parts give "". */
  function Join(parts: seq<string>, sep: char): string
  {
    if |parts| == 0 then ""
    else if |parts| == 1 then parts[0]
    else parts[0] + [sep] + Join(parts[1..], sep)
  }

  /** The pieces of `s` between occurrences of `sep`, from left to right. */
  function Split(s: string, sep: char): (parts: seq<string>)
    ensures |parts| > 0
    decreases |s|
  {
    if sep in s then
      var i := IndexOf(s, sep);
      [s[..i]] + Split(s[i + 1..], sep)
    else
      [s]
  }

  /** Joining one more part puts one separator before it. */
  lemma {:induction false} JoinAppend(parts: seq<string>, p: string, sep: char)
    ensures Join(parts + [p], sep) == if parts == [] then p else Join(parts, sep) + [sep] + p
    decreases |parts|
  {
    if |parts| > 1 {
      assert (parts + [p])[1..] == parts[1..] + [p];
      JoinAppend(parts[1..], p, sep);
    }
  }

  /** Joining five parts written out. */
  lemma JoinFive(a: string, b: string, c: string, d: string, e: string, sep: char)
    ensures Join([a, b, c, d, e], sep) == a + [sep] + b + [sep] + c + [sep] + d + [sep] + e
  {
    var s := [sep];
    assert Join([d, e], sep) == d + s + e by {
      assert [d, e][1..] == [e];
    }
    assert Join([c, d, e], sep) == c + s + (d + s + e) by {
      assert [c, d, e][1..] == [d, e];
    }
    assert Join([b, c, d, e], sep) == b + s + (c + s + (d + s + e)) by {
      assert [b, c, d, e][1..] == [c, d, e];
    }
    assert Join([a, b, c, d, e], sep) == a + s + (b + s + (c + s + (d + s + e))) by {
      assert [a, b, c, d, e][1..] == [b, c, d, e];
    }
  }

  /** A string occurs in any string that has it in the middle. */
  lemma OccursMiddle(x: string, y: string, z: string)
    ensures Occurs(y, x + y + z)
  {
    assert (x + y + z)[|x|..] == y + z;
    OccursAt(y, x + y + z, |x|);
  }

  /** Splitting undoes joining whenever no part holds the separator. */
  lemma {:induction false} SplitJoin(parts: seq<string>, sep: char)
    requires |parts| > 0
    requires forall p :: p in parts ==> sep !in p
    ensures Split(Join(parts, sep), sep) == parts
    decreases |parts|
  {
    if |parts| > 1 {
      var a, b := parts[0], Join(parts[1..], sep);
      var s := a + [sep] + b;
      assert a in parts;
      IndexOfAfter(a, sep, b);
      assert s[..|a|] == a && s[|a| + 1..] == b;
      SplitJoin(parts[1..], sep);
    }
  }

  // ---------------------------------------------------------------------------
  // White space (`strings.TrimSpace`, ASCII white space only)
  // ---------------------------------------------------------------------------

  predicate IsSpace(c: char) {
    c == ' ' || c == '\t' || c == '\n' || c == '\r' || c == 11 as char || c == 12 as char
  }

  /** Every character of `s` is white space (this includes the empty string). */
  predicate Blank(s: string) {
    forall i :: 0 <= i < |s| ==> IsSpace(s[i])
  }

  function TrimLeft(s: string): string
    decreases |s|
  {
    if s != [] && IsSpace(s[0]) then TrimLeft(s[1..]) else s
  }

  function TrimRight(s: string): string
    decreases |s|
  {
    if s != [] && IsSpace(s[|s| - 1]) then TrimRight(s[..|s| - 1]) else s
  }

  /** `s` without its leading and trailing white space. */
  function TrimSpace(s: string): string {
    TrimRight(TrimLeft(s))
  }

  lemma {:induction false} TrimLeftBlank(s: string)
    ensures TrimLeft(s) == "" <==> Blank(s)
    decreases |s|
  {
    if s != [] && IsSpace(s[0]) {
      TrimLeftBlank(s[1..]);
      assert Blank(s) <==> Blank(s[1..]) by {
        if Blank(s[1..]) {
          forall i | 0 <= i < |s| ensures IsSpace(s[i]) {
            if i > 0 { assert s[i] == s[1..][i - 1]; }
          }
        }
        if Blank(s) {
          forall i | 0 <= i < |s[1..]| ensures IsSpace(s[1..][i]) {
            assert s[1..][i] == s[i + 1];
          }
        }
      }
    }
  }

  lemma {:induction false} TrimRightBlank(s: string)
    ensures TrimRight(s) == "" <==> Blank(s)
    decreases |s|
  {
    if s != [] && IsSpace(s[|s| - 1]) {
      var t := s[..|s| - 1];
      TrimRightBlank(t);
      assert Blank(s) <==> Blank(t) by {
        if Blank(t) {
          forall i | 0 <= i < |s| ensures IsSpace(s[i]) {
            if i < |s| - 1 { assert s[i] == t[i]; }
          }
        }
        if Blank(s) {
          forall i | 0 <= i < |t| ensures IsSpace(t[i]) {
            assert t[i] == s[i];
          }
        }
      }
    }
  }

  /** A line trims to nothing exactly when it is all white space. */
  lemma TrimSpaceBlank(s: string)
    ensures TrimSpace(s) == "" <==> Blank(s)
  {
    TrimLeftBlank(s);
    TrimRightBlank(TrimLeft(s));
    TrimLeftSuffix(s);
  }

  /** What `TrimLeft` keeps is a suffix of `s` whose first character, if any,
      is not white space, so it is blank only when it is empty. */
  lemma {:induction false} TrimLeftSuffix(s: string)
    ensures TrimLeft(s) != "" ==> !IsSpace(TrimLeft(s)[0])
    decreases |s|
  {
    if s != [] && IsSpace(s[0]) {
      TrimLeftSuffix(s[1..]);
    }
  }
}

=== FILE: wrappers.dfy ===
/** Optional values and results with an error message, standing in for Go's
    nil-able values and `error` returns. */
module Wrappers {

  datatype Option<+T> = None | Some(value: T) {

    /** The wrapped value, or `default` when there is none. */
    function GetOr(default: T): T {
      match this
      case Some(v) => v
      case None => default
    }
  }

  datatype Result<+R, +E> = Ok(value: R) | Err(error: E)
}
